=== FILE: README.md ===
# Board fetcher: a Dafny model of the Eastmoney Guba article scraper

The scraper takes a stock board (`code`) and a target `date`. It collects the
board's forum posts from around that date. The board's listing is paginated
newest first: page 1 holds the newest posts.

The model covers the following steps of the `Fetcher` class:

- **Page count.** `get_total_page` reads the number of listing pages once, from the pager of page 1. It caches the value in `total_page`, which starts at -1.
- **Page search.** `get_articles_with_date` binary-searches pages `1..total_page`. Each probe loads one page. `get_date_range` gives the date of the page's first article (its newest) and of its last article (its oldest). The target is compared with both.
- **Fetch window.** The final search bounds are widened by one page on each side and clamped to the board.
- **Detail step.** Each article of each window page goes through `get_article_detail`, which fills in its `content`. This runs on a thread pool whose `map` keeps submission order.
- **Addresses and records.** Listing and permalink URLs are built by concatenation. Each decoded listing entry becomes one `Article` with empty `content`.

The browser is not modelled. What loading an address shows is a parameter, a
function from URL to outcome:
- `Listing` gives the decoded entries of a listing page, or the exception raised while getting them.
- `DetailSource` gives a permalink's body text, or the exception.
- `PagerSource` gives what the pager of page 1 shows.

Modules, in dependency order:

- `Wrappers` holds `Option` and `Result`.
- `Decimal` is Python's `str(int)` and the subset of `int(text)` used on the pager label.
- `Dates` holds `date` and `datetime` with Python's ordering.
- `Urls` builds the addresses and parses them back.
- `Articles` holds the error kinds, entries, articles, listing and date ranges.
- `DetailPool` is the detail step, plus a pool whose fetches complete in any order.
- `PageSearch` is the binary search and what it finds.
- `FetchWindow` is the window clamping.
- `BoardFetcher` holds the fetcher state, the page count and the whole generator.

Two points of naming and behaviour:

- **Swapped names.** The source names its date-range pair `earliest_date_mid, latest_date_mid`. The first is actually the page's newest date. The model calls them `newest` and `oldest`.
- **Window width.** After the loop, `end == start - 1`, so the window `[start - 1, end + 1]` is just the pages `start - 1` and `start`. The comment above the window (main.py:126) and the `+ 1` on `end` suggest something wider, but the model follows the code. `FetchWindow.WindowAfterSearch` states the two-page window, and that page `start + 1` is never fetched. So a search that stops at page 1 fetches only page 1. Also, a board with zero pages yields no articles and raises no error.

What the search guarantees:

- **Any board.** The loop computes `PageSearch.Bisect`, the search written as a recursion on the bounds. A probed page that fails to load, or loads empty, ends the run with its exception before any article is produced; a page the search never probes cannot make it fail. Otherwise the search stops at a `start` where the page before `start` (if any) sent the search right, and page `start` (if it exists) sent it left, and the window streamed is the one around that `start`. The pages the loop loads are exactly `PageSearch.BisectProbes`, the midpoints that recursion visits. It probes no page twice, only pages in `1..total_page`, and at most floor(log2 total_page) + 1 of them.
- **Oldest-ordered board** (`PageSearch.OldestOrdered`). Every page loads with at least one article. Each page's first date is not older than its last. No page's oldest date is after that of the page before it. Newest dates may go up and down, as when a page starts with a pinned post. On such a board the search cannot fail. `start` is the first page whose oldest date is on or before the target, or `total_page + 1` when there is none.
- **Well-ordered board** (`PageSearch.Ordered`). An oldest-ordered board on which, in addition, no page's newest date is after that of the page before it; neighbouring pages may still overlap. If some page's date range contains the target, the page found contains it too.
- **Why the order inside a page matters.** "Last dates never increase" is not enough by itself. Take one page whose first date is 5 and last date is 10, with target 7. The probe moves `end` left, so `start` is 1, not 2.

## Model

| member | source | states |
|---|---|---|
| `Decimal.NatToString` | main.py:51 | the decimal text of a page number is non-empty, all digits, and has no leading zero |
| `Decimal.ParseInt` | main.py:82 | parsing the pager label succeeds exactly on a non-empty run of digits, optionally after one minus sign, and yields a negative number only after that minus sign |
| `Decimal.ParseIntToString` | main.py:51 | parsing what `str` printed gives the same integer back |
| `Decimal.IntToStringInjective` | main.py:54 | distinct integers print as distinct texts |
| `Urls.ListingUrlRoundTrip` | main.py:50-51 | the page number can be read back from the listing address built from the board's start URL |
| `Urls.ArticleUrlRoundTrip` | main.py:53-54 | the post number can be read back from the permalink built for it |
| `Urls.ListingUrlInjective` | main.py:50-51 | two different page numbers of one board are loaded from two different addresses |
| `Urls.ListingIsNotArticle` | main.py:50-54 | no listing address is ever a permalink |
| `Articles.GetArticleList` | main.py:56-71 | listing a page fails exactly when loading its address fails, with that exception; otherwise there is one article per entry, with the entry's title, the permalink `get_article_url` builds from its post id, its timestamp and empty content |
| `Articles.ArticleListMatchesEntries` | main.py:65-71 | each listed article carries its entry's title and timestamp and the permalink of its post, in entry order, and the post number reads back from that permalink |
| `Articles.DateRangeBrackets` | faker_news/main.py:99-102 | on a newest-first page every article's date lies between the range's oldest and newest date |
| `Articles.PageDateRange` | faker_news/main.py:113-115 | probing a page succeeds exactly when it loads with at least one entry, and gives the first and last entry's dates; otherwise it fails with the load's exception or IndexError |
| `DetailPool.GetArticleDetail` | main.py:85-96 | title, url and publication time are kept; content becomes the fetched text, or the article is returned unchanged when the fetch fails; nothing is raised |
| `DetailPool.DetailIdempotent` | main.py:85-96 | fetching the detail again from an unchanged site gives the same article |
| `DetailPool.FailureIsIsolated` | main.py:93-94 | an article whose detail fetch fails stays in the batch, unchanged, at its place |
| `DetailPool.PoolMap` | main.py:131-136 | fetches that complete in any order, buffered by submission index, produce exactly the sequential in-order map |
| `PageSearch.Log2FloorBounds` | faker_news/main.py:107 | floor(log2 n) is the k with 2^k <= n < 2^(k+1) |
| `PageSearch.ProbeBoundIsLog2` | faker_news/main.py:107-122 | the probe budget used by the search is floor(log2 n) + 1 for n pages |
| `PageSearch.ProbeHalves` | faker_news/main.py:112-122 | the midpoint lies in the current bounds, and either branch leaves a range whose budget is one smaller |
| `PageSearch.ProbeStep` | faker_news/main.py:112-122 | one probe of the midpoint keeps the loop invariant: the bounds stay in the board, the pages next to the bounds moved the search the right way, the rest of the search has the bisection's outcome, and the pages loaded so far followed by the bisection's remaining probes are all the bisection's probes |
| `PageSearch.SearchInvariantAtExit` | faker_news/main.py:110-124 | when the bounds cross, `start == end + 1` and `start` is a stopping point: the page before it moved the search right and the page itself moved it left; the pages loaded are exactly the bisection's probes, all in the board, none twice, within the probe budget |
| `PageSearch.BisectFailsOnAPage` | faker_news/main.py:110-115 | the bisection fails only with the exception of a page between its bounds |
| `PageSearch.BisectProbesWithin` | faker_news/main.py:110-122 | the pages the bisection probes all lie between its bounds, none twice, and number at most floor(log2 n) + 1 for n pages: each probe takes the midpoint and the search goes on in a half that excludes it |
| `PageSearch.ProbeFails` | faker_news/main.py:112-115 | a probe that fails inside the loop is the bisection's outcome: the search ends with that page's exception |
| `PageSearch.Locate` | faker_news/main.py:104-124 | the loop computes the bisection: it fails exactly when the bisection meets a failing probe, with that page's exception, and otherwise ends where the bisection does; the loop ends with `start == end + 1` in `1..total+1`; the pages it loads are exactly the bisection's probes, so only pages in `1..total`, none twice, at most floor(log2 total) + 1; the page before `start` moved the search right and page `start` moved it left; on an oldest-ordered board it cannot fail and `start` is the first page whose oldest date is not after the target |
| `PageSearch.OldestNonIncreasing` | faker_news/main.py:117-122 | on an oldest-ordered board a later page's oldest date is never after an earlier page's |
| `PageSearch.NewestNonIncreasing` | faker_news/main.py:117-122 | on a well-ordered board a later page's newest date is never after an earlier page's |
| `PageSearch.FirstNotNewer` | faker_news/main.py:119-120 | the reference lower bound: every page before it has its oldest date after the target, and it is `total + 1` or a page whose oldest date is on or before the target |
| `PageSearch.BoundaryIsFirstNotNewer` | faker_news/main.py:110-124 | on an oldest-ordered board (newest dates unconstrained across pages) the only stopping point consistent with the last probes on both sides is the reference lower bound |
| `PageSearch.FirstNotNewerIsFirst` | faker_news/main.py:119-120 | the lower bound comes no later than any page whose oldest date is on or before the target |
| `PageSearch.FirstNotNewerContainsTarget` | faker_news/main.py:117-122 | if some page's range contains the target, the page the search finds comes no later and also contains the target |
| `FetchWindow.WindowAround` | main.py:127-128 | the first window page is `start - 1`, or 1 when that is not a page; the last is `end + 1`, or `total` when that lies beyond the board |
| `FetchWindow.PagesMembership` | main.py:132 | a page is iterated exactly when it lies between the window's bounds |
| `FetchWindow.PagesWithinBoard` | main.py:127-132 | whatever the bounds, only pages in `1..total` are fetched, and none when the board has no pages |
| `FetchWindow.WindowAfterSearch` | main.py:126-132 | after the search the window is the pages `start - 1` and `start` that exist, at most two, and never `start + 1` |
| `BoardFetcher.GetTotalPage` | main.py:73-83 | a known count is kept without loading anything; otherwise the call succeeds exactly when the pager has at least two labels and the second-to-last is an integer, which becomes the count; too few labels raise IndexError, a non-integer label raises ValueError, the error page raises PageNotFound and a missing pager raises WaitTimeout; only `total_page` changes |
| `BoardFetcher.TotalPageCached` | main.py:73-74 | once a count other than -1 is cached, later calls change nothing whatever the site shows |
| `BoardFetcher.NewFetcherReadsPager` | main.py:73-82 | a fresh fetcher takes the page count printed on the pager |
| `BoardFetcher.StreamPages` | main.py:131-136 | the stream ends without an exception exactly when every window page loads, and otherwise with the unchanged exception of the first window page that fails to load |
| `BoardFetcher.StreamIsDetailOfListed` | main.py:131-136 | the stream is the listed articles of the window pages, in page and listing order, each passed through the detail step |
| `BoardFetcher.OrderedWindowLoads` | main.py:127-136 | on an oldest-ordered board every page of the window around a stopping point loads, so the stream raises nothing |
| `BoardFetcher.SearchAndStream` | faker_news/main.py:107-136 | the target page or the exception is the bisection's outcome, so a failure comes only from a probed page; with no pages the target page is 1 and nothing is fetched; a failed probe ends the run with no articles; otherwise the printed target page is a stopping point (the page before it sent the search right, the page itself sent it left) and the run streams the window around it; on an oldest-ordered board nothing fails and the target page is the first page whose oldest date is not after the target |
| `BoardFetcher.GetArticlesWithDate` | main.py:104-136 | a page-count failure ends the run with that exception and no articles; once the count is known, the target page or the exception is the bisection's outcome, a failed probe ends the run with no articles, and otherwise the printed target page is a stopping point of the search and the run streams the window around it; on an oldest-ordered board nothing fails and the target page is the first page whose oldest date is not after the target |

## Left out

- The browser (DrissionPage pages, tabs, waits, the `retry=3` reloads) is replaced by the functions `Listing`, `DetailSource` and `PagerSource` from address to outcome. A page's contents are assumed not to change while the run goes on.
- Regular-expression extraction of `article_list`, JSON decoding and `strptime` are library calls. A listing page arrives already decoded, or as a single `ListingParseError`. Because `executor.map` submits a whole page before yielding, a decoding failure anywhere on a page fails the whole page. The model reproduces that.
- `ThreadPoolExecutor` scheduling, its four workers and memory use are left out. `DetailPool.PoolMap` models only the outcome of completions arriving in any order.
- An exception from `new_tab()` or from closing the tab is assumed not to happen. In the source either one would escape `get_article_detail`.
- The generator is modelled run to completion or to its first exception. A consumer that stops iterating early is not modelled. The target page the source prints after the search is returned as `found`, so that the run can be stated in terms of it; the other progress prints are left out.
- The detail step mutates the article object in place. Nothing else holds that object, so the model returns a new value instead.
- Dates are not checked for calendar validity. Only their ordering matters here.
- `rich` printing and the `__main__` driver that reads the Excel sheet and writes CSV files are left out.
- Decimal.ParseInt: rejects the surrounding whitespace, `+` sign, `_` separators and non-ASCII digits that Python's `int()` would accept, because pager labels are plain ASCII digits.

=== FILE: articles.dfy ===
/** Articles of a stock board and the listing step that produces them.
    The browser, the regular expression that cuts `article_list` out of the
    page HTML, the JSON decoding and `strptime` are outside the model: a
    listing page is given by `Listing`, which maps a page address to the
    decoded entries of that page or to the exception the fetch raised. */
module Articles {
  import opened Wrappers
  import opened Dates
  import opened Urls

  /** The exceptions the scraper can raise or catch. */
  datatype Error =
    | PageNotFound       // the site redirected to its "no such board" page
    | WaitTimeout        // an awaited element never became visible
    | ElementNotFound    // a queried element is missing
    | IndexError         // a list was too short for the index taken
    | ValueError         // a text was not an integer
    | ListingParseError  // the `article_list` block was missing or malformed

  /** One decoded element of `article_list["re"]`. */
  datatype Entry = Entry(postTitle: string, postId: int, postPublishTime: DateTime)

  datatype Article = Article(title: string, url: string, published: DateTime, content: string)

  /** What loading a listing address yields. */
  type Listing = string -> Result<seq<Entry>, Error>

  /** The article built for one entry, before any detail is fetched. */
  function ArticleOf(code: string, e: Entry): Article {
    Article(e.postTitle, ArticleUrl(code, e.postId), e.postPublishTime, "")
  }

  /** Loads listing page `pn` and turns its entries into articles. */
  function GetArticleList(code: string, listing: Listing, pn: int): (r: Result<seq<Article>, Error>)
    ensures r.Success? <==> listing(ListingUrl(code, pn)).Success?
    ensures r.Failure? ==> r.error == listing(ListingUrl(code, pn)).error
    ensures r.Success? ==> |r.value| == |listing(ListingUrl(code, pn)).value|
    ensures r.Success? ==> forall i :: 0 <= i < |r.value| ==>
              var e := listing(ListingUrl(code, pn)).value[i];
              && r.value[i].title == e.postTitle
              && r.value[i].url == ArticleUrl(code, e.postId)
              && r.value[i].published == e.postPublishTime
              && r.value[i].content == ""
  {
    match listing(ListingUrl(code, pn))
    case Failure(e) => Failure(e)
    case Success(entries) => Success(seq(|entries|, i requires 0 <= i < |entries| => ArticleOf(code, entries[i])))
  }

  /** Every listed article carries its entry's title and timestamp, and the
      permalink of its entry's post, from which the post number reads back;
      in entry order, with no content. */
  lemma ArticleListMatchesEntries(code: string, listing: Listing, pn: int)
    requires listing(ListingUrl(code, pn)).Success?
    ensures GetArticleList(code, listing, pn).Success?
    ensures var entries := listing(ListingUrl(code, pn)).value;
            var arts := GetArticleList(code, listing, pn).value;
            |arts| == |entries| &&
            forall i :: 0 <= i < |arts| ==>
              && arts[i].title == entries[i].postTitle
              && arts[i].url == ArticleUrl(code, entries[i].postId)
              && PostOfArticleUrl(code, arts[i].url) == Some(entries[i].postId)
              && arts[i].published == entries[i].postPublishTime
              && arts[i].content == ""
  {
    var entries := listing(ListingUrl(code, pn)).value;
    var arts := GetArticleList(code, listing, pn).value;
    forall i | 0 <= i < |arts|
      ensures PostOfArticleUrl(code, arts[i].url) == Some(entries[i].postId)
    {
      ArticleUrlRoundTrip(code, entries[i].postId);
    }
  }

  /** The dates of the first and of the last article of a page. The listing
      is newest first, so `newest` is the first article's date. */
  datatype DateRange = DateRange(newest: Date, oldest: Date)

  /** Dates of the first and last article; an empty page raises `IndexError`. */
  function DateRangeOf(articles: seq<Article>): (r: Result<DateRange, Error>)
    ensures r.Success? <==> |articles| > 0
    ensures r.Failure? ==> r.error == IndexError
    ensures r.Success? ==> r.value.newest == articles[0].published.date
    ensures r.Success? ==> r.value.oldest == articles[|articles| - 1].published.date
  {
    if |articles| == 0 then Failure(IndexError)
    else Success(DateRange(articles[0].published.date, articles[|articles| - 1].published.date))
  }

  /** Each article is dated no later than the one listed before it. */
  ghost predicate NewestFirst(articles: seq<Article>) {
    forall i :: 0 < i < |articles| ==> NotAfter(articles[i].published.date, articles[i - 1].published.date)
  }

  /** On a newest-first page every article's date lies inside the page's range. */
  lemma {:induction false} DateRangeBrackets(articles: seq<Article>, k: int)
    requires NewestFirst(articles)
    requires 0 <= k < |articles|
    ensures DateRangeOf(articles).Success?
    ensures NotAfter(DateRangeOf(articles).value.oldest, articles[k].published.date)
    ensures NotAfter(articles[k].published.date, DateRangeOf(articles).value.newest)
  {
    NotBeforeFirst(articles, k);
    NotAfterLast(articles, k);
  }

  lemma {:induction false} NotBeforeFirst(articles: seq<Article>, k: int)
    requires NewestFirst(articles)
    requires 0 <= k < |articles|
    ensures NotAfter(articles[k].published.date, articles[0].published.date)
    decreases k
  {
    if k > 0 {
      NotBeforeFirst(articles, k - 1);
      NotAfterTransitive(articles[k].published.date, articles[k - 1].published.date, articles[0].published.date);
    }
  }

  lemma {:induction false} NotAfterLast(articles: seq<Article>, k: int)
    requires NewestFirst(articles)
    requires 0 <= k < |articles|
    ensures NotAfter(articles[|articles| - 1].published.date, articles[k].published.date)
    decreases |articles| - k
  {
    if k < |articles| - 1 {
      NotAfterLast(articles, k + 1);
      NotAfterTransitive(articles[|articles| - 1].published.date, articles[k + 1].published.date, articles[k].published.date);
    }
  }

  /** Date range of listing page `p`: fetch, then take first and last date. */
  function PageDateRange(code: string, listing: Listing, p: int): (r: Result<DateRange, Error>)
    ensures r.Success? <==> listing(ListingUrl(code, p)).Success? && |listing(ListingUrl(code, p)).value| > 0
    ensures r.Failure? && listing(ListingUrl(code, p)).Failure? ==> r.error == listing(ListingUrl(code, p)).error
    ensures r.Failure? && listing(ListingUrl(code, p)).Success? ==> r.error == IndexError
    ensures r.Success? ==> var entries := listing(ListingUrl(code, p)).value;
              r.value == DateRange(entries[0].postPublishTime.date, entries[|entries| - 1].postPublishTime.date)
  {
    var articles :- GetArticleList(code, listing, p);
    DateRangeOf(articles)
  }
}

=== FILE: board_fetcher.dfy ===
/** The board fetcher: one stock board `code` and one target `date`. It
    learns the number of listing pages once, binary-searches the page where
    the target date sits, then streams the articles of the pages around it,
    each passed through the detail step. */
module BoardFetcher {
  import opened Wrappers
  import opened Decimal
  import opened Dates
  import opened Urls
  import opened Articles
  import opened DetailPool
  import opened PageSearch
  import opened FetchWindow

  /** `totalPage` is -1 until the page count has been read. */
  datatype Fetcher = Fetcher(code: string, date: Date, totalPage: int)

  const Unknown := -1

  function NewFetcher(code: string, date: Date): Fetcher {
    Fetcher(code, date, Unknown)
  }

  /** What loading listing page 1 shows: the site's error page, a page whose
      pager never appears, or the pager's item labels. */
  datatype PagerView = ErrorRedirect | PagerMissing | Pager(labels: seq<string>)

  type PagerSource = string -> PagerView

  /** Reads the page count from the label before the pager's last item ("next"),
      unless it is already known. */
  function GetTotalPage(f: Fetcher, pagerOf: PagerSource): (r: Result<Fetcher, Error>)
    ensures f.totalPage != Unknown ==> r == Success(f)
    ensures r.Success? ==> r.value == f.(totalPage := r.value.totalPage)
    ensures f.totalPage == Unknown && r.Success? ==>
              && pagerOf(ListingUrl(f.code, 1)).Pager?
              && |pagerOf(ListingUrl(f.code, 1)).labels| >= 2
              && ParseInt(pagerOf(ListingUrl(f.code, 1)).labels[|pagerOf(ListingUrl(f.code, 1)).labels| - 2])
                 == Some(r.value.totalPage)
    ensures f.totalPage == Unknown && pagerOf(ListingUrl(f.code, 1)) == ErrorRedirect ==> r == Failure(PageNotFound)
    ensures f.totalPage == Unknown && pagerOf(ListingUrl(f.code, 1)) == PagerMissing ==> r == Failure(WaitTimeout)
    ensures f.totalPage == Unknown && pagerOf(ListingUrl(f.code, 1)).Pager? ==>
              var labels := pagerOf(ListingUrl(f.code, 1)).labels;
              && (r.Success? <==> |labels| >= 2 && ParseInt(labels[|labels| - 2]).Some?)
              && (|labels| < 2 ==> r == Failure(IndexError))
              && (|labels| >= 2 && ParseInt(labels[|labels| - 2]).None? ==> r == Failure(ValueError))
  {
    if f.totalPage != Unknown then Success(f)
    else
      match pagerOf(ListingUrl(f.code, 1))
      case ErrorRedirect => Failure(PageNotFound)
      case PagerMissing => Failure(WaitTimeout)
      case Pager(labels) =>
        if |labels| < 2 then Failure(IndexError)
        else
          match ParseInt(labels[|labels| - 2])
          case None => Failure(ValueError)
          case Some(n) => Success(f.(totalPage := n))
  }

  /** Once a page count other than -1 is known, later calls load nothing and
      change nothing, whatever the site would show. */
  lemma TotalPageCached(f: Fetcher, first: PagerSource, later: PagerSource)
    requires GetTotalPage(f, first).Success?
    requires GetTotalPage(f, first).value.totalPage != Unknown
    ensures GetTotalPage(GetTotalPage(f, first).value, later) == GetTotalPage(f, first)
  {
  }

  /** A fresh fetcher takes the page count printed on the pager. */
  lemma NewFetcherReadsPager(code: string, date: Date, pagerOf: PagerSource, n: int)
    requires pagerOf(ListingUrl(code, 1)).Pager?
    requires var labels := pagerOf(ListingUrl(code, 1)).labels;
             |labels| >= 2 && labels[|labels| - 2] == IntToString(n)
    ensures GetTotalPage(NewFetcher(code, date), pagerOf) == Success(Fetcher(code, date, n))
  {
    ParseIntToString(n);
  }

  /** The page ranges the search probes: load the page, take its date range. */
  function RangesOf(code: string, listing: Listing): PageRanges {
    (p: int) => PageDateRange(code, listing, p)
  }

  /** What the generator yields: the articles, and the exception that ended
      it early, if any. */
  datatype Run = Run(items: seq<Article>, failure: Option<Error>)

  /** The fetch loop over the window: each page is listed and its articles
      pass through the detail pool in listing order; a page that fails to
      load ends the stream with its exception. */
  function StreamPages(code: string, listing: Listing, detail: DetailSource, pages: seq<int>): (r: Run)
    ensures r.failure.None? <==> forall i :: 0 <= i < |pages| ==> GetArticleList(code, listing, pages[i]).Success?
    // The exception that ends the stream is that of the first page that fails
    // to load, unchanged.
    ensures r.failure.Some? ==>
              exists i :: 0 <= i < |pages| && GetArticleList(code, listing, pages[i]) == Failure(r.failure.value) &&
                forall j :: 0 <= j < i ==> GetArticleList(code, listing, pages[j]).Success?
    decreases |pages|
  {
    if pages == [] then Run([], None)
    else
      match GetArticleList(code, listing, pages[0])
      case Failure(e) => Run([], Some(e))
      case Success(articles) =>
        var rest := StreamPages(code, listing, detail, pages[1..]);
        Run(DetailAll(articles, detail) + rest.items, rest.failure)
  }

  /** The listed articles of `pages`, in order, up to the first page that
      fails to load. */
  function Listed(code: string, listing: Listing, pages: seq<int>): seq<Article>
    decreases |pages|
  {
    if pages == [] then []
    else
      match GetArticleList(code, listing, pages[0])
      case Failure(_) => []
      case Success(articles) => articles + Listed(code, listing, pages[1..])
  }

  /** The stream is the listed articles, in listing order, each passed
      through the detail step: nothing is dropped, added or reordered. */
  lemma {:induction false} StreamIsDetailOfListed(code: string, listing: Listing, detail: DetailSource, pages: seq<int>)
    ensures |StreamPages(code, listing, detail, pages).items| == |Listed(code, listing, pages)|
    ensures forall i :: 0 <= i < |Listed(code, listing, pages)| ==>
              StreamPages(code, listing, detail, pages).items[i] == GetArticleDetail(Listed(code, listing, pages)[i], detail)
    decreases |pages|
  {
    if pages != [] {
      var head := GetArticleList(code, listing, pages[0]);
      if head.Success? {
        StreamIsDetailOfListed(code, listing, detail, pages[1..]);
        var here := DetailAll(head.value, detail);
        var rest := StreamPages(code, listing, detail, pages[1..]).items;
        var listedRest := Listed(code, listing, pages[1..]);
        var items := StreamPages(code, listing, detail, pages).items;
        var listed := Listed(code, listing, pages);
        assert items == here + rest;
        assert listed == head.value + listedRest;
        forall i | 0 <= i < |listed|
          ensures items[i] == GetArticleDetail(listed[i], detail)
        {
          if i < |head.value| {
            assert items[i] == here[i] && listed[i] == head.value[i];
          } else {
            assert items[i] == rest[i - |here|] && listed[i] == listedRest[i - |head.value|];
          }
        }
      }
    }
  }

  /** The pages fetched after a search that stopped at `start`. */
  function SearchWindow(start: int, total: int): seq<int> {
    Pages(WindowAround(start, start - 1, total))
  }

  /** On an oldest-ordered board every page of the window loads, so the stream
      ends without an exception. */
  lemma OrderedWindowLoads(code: string, listing: Listing, detail: DetailSource, total: int, start: int)
    requires total >= 0 && 1 <= start <= total + 1
    ensures OldestOrdered(RangesOf(code, listing), total) ==>
              StreamPages(code, listing, detail, SearchWindow(start, total)).failure.None?
  {
    var pages := SearchWindow(start, total);
    PagesWithinBoard(start, start - 1, total);
    if OldestOrdered(RangesOf(code, listing), total) {
      forall i | 0 <= i < |pages|
        ensures GetArticleList(code, listing, pages[i]).Success?
      {
        assert pages[i] in pages;
        assert RangesOf(code, listing)(pages[i]).Success?;
      }
    }
  }

  /** The part of the generator after the page count is known: search the
      `total` pages of the board for `date`, then stream the window. `found`
      is the target page the search prints, or the exception that ended it. */
  method SearchAndStream(code: string, date: Date, total: int, listing: Listing, detail: DetailSource)
    returns (found: Result<int, Error>, run: Run)
    // The target page, or the exception, is the outcome of the bisection: a
    // failure comes only from a page the search probes.
    ensures total >= 0 ==> found == Bisect(RangesOf(code, listing), date, 1, total)
    ensures total < 0 ==> found == Success(1) && run == Run([], None)
    // A failed probe ends the run with that page's exception and no articles.
    ensures found.Failure? ==> run == Run([], Some(found.error))
    // Whatever the board, the search stops at a page where the page before it
    // sent the search right and the page itself sent it left, and the run
    // streams the window around that page.
    ensures found.Success? && total >= 0 ==> StoppedAt(RangesOf(code, listing), total, date, found.value)
    ensures found.Success? && total >= 0 ==> run == StreamPages(code, listing, detail, SearchWindow(found.value, total))
    // On an oldest-ordered board nothing fails, and the target page is the first
    // page whose oldest article is not newer than the target date.
    ensures total >= 0 && OldestOrdered(RangesOf(code, listing), total) ==>
              && found == Success(FirstNotNewer(RangesOf(code, listing), total, date, 1))
              && run.failure.None?
  {
    var search := Locate(RangesOf(code, listing), total, date);
    if search.Failure? {
      return Failure(search.error), Run([], Some(search.error));
    }
    found := Success(search.value.start);
    var window := WindowAround(search.value.start, search.value.end, total);
    var pages := Pages(window);
    run := StreamPages(code, listing, detail, pages);
    if total < 0 {
      PagesWithinBoard(search.value.start, search.value.end, total);
    } else {
      assert pages == SearchWindow(search.value.start, total);
      OrderedWindowLoads(code, listing, detail, total, search.value.start);
    }
  }

  /** The board fetcher's generator, run to completion or to its first
      exception. A failure while reading the page count or searching ends
      the run before any article is produced. `found` is the target page
      the search prints, or the exception that ended the run early. */
  method GetArticlesWithDate(f: Fetcher, pagerOf: PagerSource, listing: Listing, detail: DetailSource)
    returns (g: Fetcher, found: Result<int, Error>, run: Run)
    ensures GetTotalPage(f, pagerOf).Failure? ==>
              && g == f
              && found == Failure(GetTotalPage(f, pagerOf).error)
              && run == Run([], Some(GetTotalPage(f, pagerOf).error))
    ensures GetTotalPage(f, pagerOf).Success? ==> g == GetTotalPage(f, pagerOf).value
    ensures GetTotalPage(f, pagerOf).Success? && g.totalPage < 0 ==> found == Success(1) && run == Run([], None)
    // Once the page count is known, a failed probe ends the run with that
    // page's exception and no articles.
    ensures GetTotalPage(f, pagerOf).Success? && found.Failure? ==>
              && run == Run([], Some(found.error))
              && exists p :: 1 <= p <= g.totalPage && RangesOf(g.code, listing)(p) == Failure(found.error)
    // Otherwise, whatever the board, the run streams the window around a
    // page where the search stops.
    ensures GetTotalPage(f, pagerOf).Success? && found.Success? && g.totalPage >= 0 ==>
              StoppedAt(RangesOf(g.code, listing), g.totalPage, g.date, found.value)
    ensures GetTotalPage(f, pagerOf).Success? && found.Success? && g.totalPage >= 0 ==>
              run == StreamPages(g.code, listing, detail, SearchWindow(found.value, g.totalPage))
    // On an oldest-ordered board nothing fails, and the target page is the first
    // page whose oldest article is not newer than the target date.
    ensures GetTotalPage(f, pagerOf).Success? && g.totalPage >= 0 && OldestOrdered(RangesOf(g.code, listing), g.totalPage) ==>
              && found == Success(FirstNotNewer(RangesOf(g.code, listing), g.totalPage, g.date, 1))
              && run.failure.None?
    // Once the page count is known, the target page or the exception is the
    // outcome of the bisection over the board's pages.
    ensures GetTotalPage(f, pagerOf).Success? ==> found == Bisect(RangesOf(g.code, listing), g.date, 1, g.totalPage)
  {
    var t := GetTotalPage(f, pagerOf);
    if t.Failure? {
      return f, Failure(t.error), Run([], Some(t.error));
    }
    g := t.value;
    found, run := SearchAndStream(g.code, g.date, g.totalPage, listing, detail);
    BisectFailsOnAPage(RangesOf(g.code, listing), g.date, 1, g.totalPage);
  }
}

=== FILE: dates.dfy ===
/** Calendar dates and timestamps with Python's `date` ordering: dates compare
    by (year, month, day), lexicographically. */
module Dates {

  datatype Date = Date(year: int, month: int, day: int)

  /** A `datetime` parsed with the format `%Y-%m-%d %H:%M:%S`; `date` is
      what its `.date()` method returns. */
  datatype DateTime = DateTime(date: Date, hour: int, minute: int, second: int)

  /** `a < b` on Python dates. */
  predicate Before(a: Date, b: Date) {
    || a.year < b.year
    || (a.year == b.year && a.month < b.month)
    || (a.year == b.year && a.month == b.month && a.day < b.day)
  }

  /** `a <= b` on Python dates. */
  predicate NotAfter(a: Date, b: Date) {
    !Before(b, a)
  }

  lemma NotAfterTransitive(a: Date, b: Date, c: Date)
    ensures NotAfter(a, b) && NotAfter(b, c) ==> NotAfter(a, c)
  {
  }
}

=== FILE: decimal.dfy ===
/** Decimal rendering of integers, as Python's `str(int)` does it, and the
    parser that inverts it (the subset of Python's `int(text)` used here). */
module Decimal {
  import opened Wrappers

  predicate IsDigit(c: char) {
    '0' <= c <= '9'
  }

  predicate AllDigits(s: string) {
    forall i :: 0 <= i < |s| ==> IsDigit(s[i])
  }

  function DigitChar(d: int): (c: char)
    requires 0 <= d < 10
    ensures IsDigit(c)
  {
    "0123456789"[d]
  }

  function DigitValue(c: char): (d: int)
    requires IsDigit(c)
    ensures 0 <= d < 10
  {
    c as int - '0' as int
  }

  lemma DigitValueOfChar(d: int)
    requires 0 <= d < 10
    ensures DigitValue(DigitChar(d)) == d
  {
  }

  /** The shortest decimal numeral of `n`, most significant digit first. */
  function NatToString(n: nat): (s: string)
    ensures |s| >= 1
    ensures AllDigits(s)
    ensures |s| > 1 ==> s[0] != '0'
    decreases n
  {
    if n < 10 then [DigitChar(n)] else NatToString(n / 10) + [DigitChar(n % 10)]
  }

  /** Python's `str` on an `int`: a minus sign for negatives, then the numeral. */
  function IntToString(n: int): (s: string)
    ensures |s| >= 1
    ensures n < 0 <==> s[0] == '-'
  {
    if n < 0 then "-" + NatToString(-n) else NatToString(n)
  }

  /** Value of a non-empty run of decimal digits (leading zeros allowed). */
  function DigitsValue(s: string): (n: nat)
    requires |s| >= 1 && AllDigits(s)
    decreases |s|
  {
    if |s| == 1 then DigitValue(s[0])
    else 10 * DigitsValue(s[..|s| - 1]) + DigitValue(s[|s| - 1])
  }

  /** Integer parsing: an optional minus sign followed by one or more digits;
      anything else is rejected (Python raises `ValueError`). */
  function ParseInt(s: string): (r: Option<int>)
    ensures r.Some? <==> (|s| >= 1 && AllDigits(s)) || (|s| >= 2 && s[0] == '-' && AllDigits(s[1..]))
    ensures r.Some? && r.value < 0 ==> s[0] == '-'
  {
    if |s| >= 2 && s[0] == '-' && AllDigits(s[1..]) then Some(-(DigitsValue(s[1..]) as int))
    else if |s| >= 1 && AllDigits(s) then Some(DigitsValue(s))
    else None
  }

  lemma {:induction false} DigitsValueOfNatToString(n: nat)
    ensures DigitsValue(NatToString(n)) == n
    decreases n
  {
    if n < 10 {
      DigitValueOfChar(n);
    } else {
      var s := NatToString(n);
      var front := NatToString(n / 10);
      assert s == front + [DigitChar(n % 10)];
      assert s[..|s| - 1] == front;
      DigitsValueOfNatToString(n / 10);
      DigitValueOfChar(n % 10);
    }
  }

  /** Parsing what `IntToString` printed gives the number back. */
  lemma ParseIntToString(n: int)
    ensures ParseInt(IntToString(n)) == Some(n)
  {
    var s := IntToString(n);
    if n < 0 {
      assert s[1..] == NatToString(-n);
      DigitsValueOfNatToString(-n);
    } else {
      DigitsValueOfNatToString(n);
    }
  }

  /** Distinct integers print differently. */
  lemma IntToStringInjective(m: int, n: int)
    ensures IntToString(m) == IntToString(n) ==> m == n
  {
    ParseIntToString(m);
    ParseIntToString(n);
  }
}

=== FILE: detail_pool.dfy ===
/** The detail step and the worker pool that runs it over one listing page.
    A detail page is loaded in its own tab; what that load yields is given by
    `DetailSource`, keyed by the article's permalink. */
module DetailPool {
  import opened Articles

  /** What loading a permalink and reading its `newstext` element yields:
      the element's text, or the exception raised on the way. */
  datatype DetailOutcome = Body(text: string) | Failed(reason: Error)

  type DetailSource = string -> DetailOutcome

  /** The article with its fetched body, or unchanged when the fetch failed;
      no failure reaches the caller. */
  function GetArticleDetail(a: Article, detail: DetailSource): (r: Article)
    ensures r.title == a.title && r.url == a.url && r.published == a.published
    ensures detail(a.url).Failed? ==> r == a
    ensures detail(a.url).Body? ==> r.content == detail(a.url).text
  {
    match detail(a.url)
    case Body(text) => a.(content := text)
    case Failed(_) => a
  }

  /** Fetching the detail again from an unchanged source gives the same article. */
  lemma DetailIdempotent(a: Article, detail: DetailSource)
    ensures GetArticleDetail(GetArticleDetail(a, detail), detail) == GetArticleDetail(a, detail)
  {
  }

  /** The meaning of `executor.map(get_article_detail, articles)`: one result
      per article, in submission order. */
  function DetailAll(articles: seq<Article>, detail: DetailSource): (r: seq<Article>)
    ensures |r| == |articles|
    ensures forall i :: 0 <= i < |r| ==> r[i] == GetArticleDetail(articles[i], detail)
  {
    seq(|articles|, i requires 0 <= i < |articles| => GetArticleDetail(articles[i], detail))
  }

  /** A failing detail fetch neither drops nor alters its article, and does
      not affect any other article of the batch. */
  lemma FailureIsIsolated(articles: seq<Article>, detail: DetailSource, k: int)
    requires 0 <= k < |articles|
    requires detail(articles[k].url).Failed?
    ensures |DetailAll(articles, detail)| == |articles|
    ensures DetailAll(articles, detail)[k] == articles[k]
  {
  }

  /** `order` lists the indices 0..n-1 in the order their fetches complete. */
  ghost predicate IsCompletionOrder(order: seq<int>, n: int) {
    && |order| == n
    && (forall j :: 0 <= j < |order| ==> 0 <= order[j] < n)
    && (forall k :: 0 <= k < n ==> k in order)
  }

  /** A pool whose fetches complete in an arbitrary `order`: each result is
      buffered under its submission index as it completes, then the buffer is
      drained in index order. The output is the sequential `DetailAll`. */
  method PoolMap(articles: seq<Article>, detail: DetailSource, order: seq<int>) returns (out: seq<Article>)
    requires IsCompletionOrder(order, |articles|)
    ensures out == DetailAll(articles, detail)
  {
    var buffer: map<int, Article> := map[];
    var j := 0;
    while j < |order|
      invariant 0 <= j <= |order|
      invariant forall k :: k in buffer <==> k in order[..j]
      invariant forall k :: k in buffer ==> 0 <= k < |articles| && buffer[k] == GetArticleDetail(articles[k], detail)
    {
      var k := order[j];
      buffer := buffer[k := GetArticleDetail(articles[k], detail)];
      assert order[..j + 1] == order[..j] + [k];
      j := j + 1;
    }
    assert order[..j] == order;
    out := [];
    var i := 0;
    while i < |articles|
      invariant 0 <= i <= |articles|
      invariant |out| == i
      invariant forall m :: 0 <= m < i ==> out[m] == GetArticleDetail(articles[m], detail)
    {
      assert i in order;
      out := out + [buffer[i]];
      i := i + 1;
    }
  }
}

=== FILE: fetch_window.dfy ===
/** The pages fetched once the search has stopped: the search bounds widened
    by one page on each side and clamped to the board. */
module FetchWindow {

  datatype Window = Window(startPage: int, endPage: int)

  /** `start_page` and `end_page` of the board fetcher, from the final
      search bounds `start`, `end` and the page count `total`. */
  function WindowAround(start: int, end: int, total: int): (w: Window)
    ensures w.startPage >= 1 && w.startPage >= start - 1
    ensures w.startPage == 1 || w.startPage == start - 1
    ensures w.endPage <= total && w.endPage <= end + 1
    ensures w.endPage == total || w.endPage == end + 1
  {
    var startPage := if start - 1 > 0 then start - 1 else 1;
    var endPage := if end + 1 <= total then end + 1 else total;
    Window(startPage, endPage)
  }

  /** Python's `range(startPage, endPage + 1)`. */
  function Pages(w: Window): (pages: seq<int>)
    ensures |pages| == if w.startPage <= w.endPage then w.endPage - w.startPage + 1 else 0
    ensures forall i :: 0 <= i < |pages| ==> pages[i] == w.startPage + i
    ensures forall i, j :: 0 <= i < j < |pages| ==> pages[i] < pages[j]
  {
    var n := if w.endPage >= w.startPage then w.endPage - w.startPage + 1 else 0;
    seq(n, i requires 0 <= i < n => w.startPage + i)
  }

  /** Exactly the pages from `startPage` through `endPage` are iterated. */
  lemma PagesMembership(w: Window)
    ensures forall p :: p in Pages(w) <==> w.startPage <= p <= w.endPage
  {
    var pages := Pages(w);
    forall p | w.startPage <= p <= w.endPage
      ensures p in pages
    {
      assert pages[p - w.startPage] == p;
    }
  }

  /** Whatever the bounds, only pages of the board are fetched, and none at
      all from a board with no pages. */
  lemma PagesWithinBoard(start: int, end: int, total: int)
    ensures forall p :: p in Pages(WindowAround(start, end, total)) ==> 1 <= p <= total
    ensures total < 1 ==> Pages(WindowAround(start, end, total)) == []
  {
    PagesMembership(WindowAround(start, end, total));
  }

  /** After the search (`end == start - 1`) the window is the page before
      `start` and `start` itself, where they exist: at most two pages, and
      never the page after `start`. */
  lemma WindowAfterSearch(start: int, total: int)
    requires total >= 0 && 1 <= start <= total + 1
    ensures Pages(WindowAround(start, start - 1, total))
            == (if start >= 2 then [start - 1] else []) + (if start <= total then [start] else [])
    ensures |Pages(WindowAround(start, start - 1, total))| <= 2
    ensures start + 1 !in Pages(WindowAround(start, start - 1, total))
  {
    var pages := Pages(WindowAround(start, start - 1, total));
    var expected := (if start >= 2 then [start - 1] else []) + (if start <= total then [start] else []);
    assert |pages| == |expected|;
    assert forall i :: 0 <= i < |pages| ==> pages[i] == expected[i];
  }
}

=== FILE: page_search.dfy ===
/** The binary search over listing pages that finds where a target date
    sits in a newest-first board. Each probe loads one page and compares the
    target with the dates of the page's first (newest) and last (oldest)
    article. */
module PageSearch {
  import opened Wrappers
  import opened Dates
  import opened Articles

  /** The date range of each listing page, or the exception loading it raises:
      the fetcher passes `p => PageDateRange(code, listing, p)`. */
  type PageRanges = int -> Result<DateRange, Error>

  /** Final bounds of the search and the pages it loaded, in probe order. */
  datatype Search = Search(start: int, end: int, probed: seq<int>)

  /** The probe moves `start` right only when the target is not newer than
      the page's newest date and is strictly older than its oldest date;
      in every other case it moves `end` left. */
  predicate MovesRight(range: DateRange, target: Date) {
    !Before(range.newest, target) && Before(target, range.oldest)
  }

  ghost predicate ProbedRight(rangeAt: PageRanges, target: Date, p: int) {
    rangeAt(p).Success? && MovesRight(rangeAt(p).value, target)
  }

  ghost predicate ProbedLeft(rangeAt: PageRanges, target: Date, p: int) {
    rangeAt(p).Success? && !MovesRight(rangeAt(p).value, target)
  }

  // ---------------------------------------------------------------------
  // Number of probes

  function Pow2(k: nat): nat {
    if k == 0 then 1 else 2 * Pow2(k - 1)
  }

  /** floor(log2 n). */
  function Log2Floor(n: int): nat
    requires n >= 1
  {
    if n == 1 then 0 else 1 + Log2Floor(n / 2)
  }

  lemma {:induction false} Log2FloorBounds(n: int)
    requires n >= 1
    ensures Pow2(Log2Floor(n)) <= n < Pow2(Log2Floor(n) + 1)
  {
    if n > 1 {
      Log2FloorBounds(n / 2);
    }
  }

  /** The most probes a search over `n` pages may take: one, plus the most
      for the half that is left; none when there are no pages. */
  function ProbeBound(n: int): nat {
    if n < 1 then 0 else 1 + ProbeBound(n / 2)
  }

  /** That bound is floor(log2 n) + 1. */
  lemma {:induction false} ProbeBoundIsLog2(n: int)
    requires n >= 1
    ensures ProbeBound(n) == Log2Floor(n) + 1
  {
    if n > 1 {
      ProbeBoundIsLog2(n / 2);
    }
  }

  lemma {:induction false} ProbeBoundMonotone(a: int, b: int)
    requires a <= b
    ensures ProbeBound(a) <= ProbeBound(b)
    decreases b
  {
    if a >= 1 {
      ProbeBoundMonotone(a / 2, b / 2);
    }
  }

  /** One probe at the midpoint leaves at most half of `[start, end]` to search. */
  lemma ProbeHalves(start: int, end: int, mid: int)
    requires 1 <= start <= end
    requires mid == (start + end) / 2
    ensures start <= mid <= end
    ensures 1 + ProbeBound(mid - start) <= ProbeBound(end - start + 1)
    ensures 1 + ProbeBound(end - mid) <= ProbeBound(end - start + 1)
  {
    var n := end - start + 1;
    assert mid - start <= n / 2 && end - mid <= n / 2;
    ProbeBoundMonotone(mid - start, n / 2);
    ProbeBoundMonotone(end - mid, n / 2);
  }

  // ---------------------------------------------------------------------
  // Bookkeeping of the probed pages

  /** No page number occurs twice. */
  ghost predicate Distinct(probed: seq<int>) {
    forall i, j :: 0 <= i < j < |probed| ==> probed[i] != probed[j]
  }

  /** Every probed page is a page of the board outside the bounds still open. */
  ghost predicate ProbedOutside(probed: seq<int>, start: int, end: int, total: int) {
    forall i :: 0 <= i < |probed| ==> 1 <= probed[i] <= total && (probed[i] < start || end < probed[i])
  }

  // ---------------------------------------------------------------------
  // The search

  /** The page before `start` sent the search right and page `start` sent it
      left, where those pages exist: the stopping points of the search. */
  ghost predicate StoppedAt(rangeAt: PageRanges, total: int, target: Date, start: int) {
    && 1 <= start <= total + 1
    && (start == 1 || ProbedRight(rangeAt, target, start - 1))
    && (start == total + 1 || ProbedLeft(rangeAt, target, start))
  }

  /** The search as a recursion on the bounds: probe the midpoint and fail
      with its exception, or go on in the half the probe points to. Its
      result is the page `start` ends at. */
  ghost function Bisect(rangeAt: PageRanges, target: Date, start: int, end: int): (r: Result<int, Error>)
    decreases end - start + 1
  {
    if start > end then Success(start)
    else
      var mid := (start + end) / 2;
      match rangeAt(mid)
      case Failure(e) => Failure(e)
      case Success(range) =>
        if MovesRight(range, target) then Bisect(rangeAt, target, mid + 1, end)
        else Bisect(rangeAt, target, start, mid - 1)
  }

  /** The bisection fails only with the exception of a page between its
      bounds. */
  lemma {:induction false} BisectFailsOnAPage(rangeAt: PageRanges, target: Date, start: int, end: int)
    ensures Bisect(rangeAt, target, start, end).Failure? ==>
              exists p :: start <= p <= end && rangeAt(p) == Failure(Bisect(rangeAt, target, start, end).error)
    decreases end - start + 1
  {
    if start <= end {
      var mid := (start + end) / 2;
      if rangeAt(mid).Success? {
        if MovesRight(rangeAt(mid).value, target) {
          BisectFailsOnAPage(rangeAt, target, mid + 1, end);
        } else {
          BisectFailsOnAPage(rangeAt, target, start, mid - 1);
        }
      }
    }
  }

  /** The pages the bisection loads, in order: the midpoint, then the pages
      of the half it points to; nothing after a probe that fails. */
  ghost function BisectProbes(rangeAt: PageRanges, target: Date, start: int, end: int): seq<int>
    decreases end - start + 1
  {
    if start > end then []
    else
      var mid := (start + end) / 2;
      match rangeAt(mid)
      case Failure(_) => [mid]
      case Success(range) =>
        if MovesRight(range, target) then [mid] + BisectProbes(rangeAt, target, mid + 1, end)
        else [mid] + BisectProbes(rangeAt, target, start, mid - 1)
  }

  /** Pages all between `start` and `end`, none twice, and at most as many as
      a search over those pages may probe. */
  ghost predicate ProbesWithin(probes: seq<int>, start: int, end: int) {
    && (forall i :: 0 <= i < |probes| ==> start <= probes[i] <= end)
    && Distinct(probes)
    && |probes| <= ProbeBound(end - start + 1)
  }

  /** The bisection loads only pages between its bounds, none twice, and at
      most floor(log2 n) + 1 of the n pages there. */
  lemma {:induction false} BisectProbesWithin(rangeAt: PageRanges, target: Date, start: int, end: int)
    requires 1 <= start
    ensures ProbesWithin(BisectProbes(rangeAt, target, start, end), start, end)
    decreases end - start + 1
  {
    if start <= end {
      var mid := (start + end) / 2;
      ProbeHalves(start, end, mid);
      if rangeAt(mid).Success? {
        var right := MovesRight(rangeAt(mid).value, target);
        var nextStart := if right then mid + 1 else start;
        var nextEnd := if right then end else mid - 1;
        BisectProbe(rangeAt, target, start, end, mid, nextStart, nextEnd);
        BisectProbesWithin(rangeAt, target, nextStart, nextEnd);
        ProbeBeforeHalf(mid, BisectProbes(rangeAt, target, nextStart, nextEnd), start, end, nextStart, nextEnd);
      } else {
        ProbeBeforeHalf(mid, [], start, end, start, mid - 1);
      }
    }
  }

  /** The midpoint followed by the probes of either half stays within the
      bounds, distinct and within budget. */
  lemma ProbeBeforeHalf(mid: int, rest: seq<int>, start: int, end: int, nextStart: int, nextEnd: int)
    requires 1 <= start <= mid <= end
    requires (nextStart == mid + 1 && nextEnd == end) || (nextStart == start && nextEnd == mid - 1)
    requires 1 + ProbeBound(nextEnd - nextStart + 1) <= ProbeBound(end - start + 1)
    requires ProbesWithin(rest, nextStart, nextEnd)
    ensures ProbesWithin([mid] + rest, start, end)
  {
    var all := [mid] + rest;
    forall i, j | 0 <= i < j < |all|
      ensures all[i] != all[j]
    {
      assert all[j] == rest[j - 1];
      if i > 0 {
        assert all[i] == rest[i - 1];
      }
    }
  }

  /** One step of the bisection: the probe of the midpoint either fails, or
      leaves the half it points to. */
  lemma BisectProbe(rangeAt: PageRanges, target: Date, start: int, end: int, mid: int, nextStart: int, nextEnd: int)
    requires start <= end && mid == (start + end) / 2
    requires rangeAt(mid).Success? && MovesRight(rangeAt(mid).value, target) ==> nextStart == mid + 1 && nextEnd == end
    requires rangeAt(mid).Success? && !MovesRight(rangeAt(mid).value, target) ==> nextStart == start && nextEnd == mid - 1
    ensures rangeAt(mid).Failure? ==> Bisect(rangeAt, target, start, end) == Failure(rangeAt(mid).error)
    ensures rangeAt(mid).Success? ==> Bisect(rangeAt, target, start, end) == Bisect(rangeAt, target, nextStart, nextEnd)
    ensures rangeAt(mid).Success? ==>
              BisectProbes(rangeAt, target, start, end) == [mid] + BisectProbes(rangeAt, target, nextStart, nextEnd)
  {
  }

  /** What holds of the bounds `start`, `end` and the probed pages before
      every iteration of the loop. */
  ghost predicate SearchInvariant(rangeAt: PageRanges, total: int, target: Date, start: int, end: int, probed: seq<int>) {
    && 1 <= start && end <= total
    && (total >= 0 ==> start <= end + 1)
    && (total < 0 ==> start == 1 && end == total && probed == [])
    && (start == 1 || ProbedRight(rangeAt, target, start - 1))
    && (end == total || ProbedLeft(rangeAt, target, end + 1))
    && Bisect(rangeAt, target, start, end) == Bisect(rangeAt, target, 1, total)
    && probed + BisectProbes(rangeAt, target, start, end) == BisectProbes(rangeAt, target, 1, total)
  }

  lemma SearchInvariantHoldsInitially(rangeAt: PageRanges, total: int, target: Date)
    ensures SearchInvariant(rangeAt, total, target, 1, total, [])
  {
  }

  /** One probe of the midpoint keeps the invariant, whichever half the
      probe chooses: `nextStart` and `nextEnd` are the bounds after it. */
  lemma {:induction false} ProbeStep(rangeAt: PageRanges, total: int, target: Date, start: int, end: int, probed: seq<int>, mid: int,
                                     nextStart: int, nextEnd: int)
    requires SearchInvariant(rangeAt, total, target, start, end, probed)
    requires start <= end && mid == (start + end) / 2
    requires rangeAt(mid).Success?
    requires MovesRight(rangeAt(mid).value, target) ==> nextStart == mid + 1 && nextEnd == end
    requires !MovesRight(rangeAt(mid).value, target) ==> nextStart == start && nextEnd == mid - 1
    ensures SearchInvariant(rangeAt, total, target, nextStart, nextEnd, probed + [mid])
  {
    ProbeHalves(start, end, mid);
    BisectProbe(rangeAt, target, start, end, mid, nextStart, nextEnd);
    var rest := BisectProbes(rangeAt, target, nextStart, nextEnd);
    AppendProbe(probed, mid, rest);
    assert MovesRight(rangeAt(mid).value, target) ==> ProbedRight(rangeAt, target, nextStart - 1);
    assert !MovesRight(rangeAt(mid).value, target) ==> ProbedLeft(rangeAt, target, nextEnd + 1);
  }

  lemma AppendProbe(probed: seq<int>, mid: int, rest: seq<int>)
    ensures (probed + [mid]) + rest == probed + ([mid] + rest)
  {
  }

  /** When the bounds cross, the invariant gives everything the search promises. */
  lemma SearchInvariantAtExit(rangeAt: PageRanges, total: int, target: Date, start: int, end: int, probed: seq<int>)
    requires SearchInvariant(rangeAt, total, target, start, end, probed)
    requires start > end
    ensures total >= 0 ==> start == end + 1 && StoppedAt(rangeAt, total, target, start)
    ensures total < 0 ==> start == 1 && end == total && probed == []
    ensures probed == BisectProbes(rangeAt, target, 1, total)
    ensures ProbedOutside(probed, start, end, total) && Distinct(probed)
    ensures |probed| <= ProbeBound(total)
    ensures Bisect(rangeAt, target, 1, total) == Success(start)
  {
    assert probed + [] == probed;
    BisectProbesWithin(rangeAt, target, 1, total);
  }

  /** A probe that fails ends the bisection with the probed page's exception. */
  lemma ProbeFails(rangeAt: PageRanges, total: int, target: Date, start: int, end: int, probed: seq<int>, mid: int)
    requires SearchInvariant(rangeAt, total, target, start, end, probed)
    requires start <= end && mid == (start + end) / 2
    requires rangeAt(mid).Failure?
    ensures Bisect(rangeAt, target, 1, total) == Failure(rangeAt(mid).error)
  {
    BisectProbe(rangeAt, target, start, end, mid, start, end);
  }

  /** The loop of the board fetcher: binary search over pages 1..total. A
      page that fails to load, or loads empty, aborts the search with that
      exception. */
  method Locate(rangeAt: PageRanges, total: int, target: Date) returns (r: Result<Search, Error>)
    // The loop ends with the bounds crossed.
    ensures r.Success? && total >= 0 ==> r.value.start == r.value.end + 1 && 1 <= r.value.start <= total + 1
    ensures r.Success? && total < 0 ==> r.value == Search(1, total, [])
    // Only pages 1..total are loaded, none twice, at most floor(log2 total) + 1 of them.
    ensures r.Success? ==> ProbedOutside(r.value.probed, r.value.start, r.value.end, total)
    ensures r.Success? ==> Distinct(r.value.probed)
    ensures r.Success? ==> |r.value.probed| <= ProbeBound(total)
    // The pages it loaded are exactly those the bisection probes.
    ensures r.Success? ==> r.value.probed == BisectProbes(rangeAt, target, 1, total)
    // Whatever the listing: the page before `start` sent the search right,
    // page `start` sent it left.
    ensures r.Success? && total >= 0 ==> StoppedAt(rangeAt, total, target, r.value.start)
    // The loop computes the bisection: it fails exactly when a page it
    // probes fails, with that page's exception, and otherwise stops where the
    // bisection does.
    ensures r.Failure? <==> Bisect(rangeAt, target, 1, total).Failure?
    ensures r.Failure? ==> r.error == Bisect(rangeAt, target, 1, total).error
    ensures r.Success? ==> r.value.start == Bisect(rangeAt, target, 1, total).value
    // A failure is the exception of a page in 1..total.
    ensures r.Failure? ==> exists p :: 1 <= p <= total && rangeAt(p) == Failure(r.error)
    // On an oldest-ordered board the search cannot fail and finds the first
    // page whose oldest article is not newer than the target.
    ensures total >= 0 && OldestOrdered(rangeAt, total) ==>
              r.Success? && r.value.start == FirstNotNewer(rangeAt, total, target, 1)
  {
    var start, end := 1, total;
    var probed: seq<int> := [];
    SearchInvariantHoldsInitially(rangeAt, total, target);
    while start <= end
      invariant SearchInvariant(rangeAt, total, target, start, end, probed)
      decreases end - start + 1
    {
      var mid := (start + end) / 2;
      ProbeHalves(start, end, mid);
      var range := rangeAt(mid);
      if range.Failure? {
        OrderedPagesLoad(rangeAt, total, mid);
        ProbeFails(rangeAt, total, target, start, end, probed, mid);
        return Failure(range.error);
      }
      ghost var probedStart, probedEnd := start, end;
      if Before(range.value.newest, target) {
        end := mid - 1;
      } else if Before(target, range.value.oldest) {
        start := mid + 1;
      } else {
        end := mid - 1;
      }
      ProbeStep(rangeAt, total, target, probedStart, probedEnd, probed, mid, start, end);
      probed := probed + [mid];
    }
    SearchInvariantAtExit(rangeAt, total, target, start, end, probed);
    r := Success(Search(start, end, probed));
    if total >= 0 {
      BoundaryIsFirstNotNewer(rangeAt, total, target, start);
    }
  }

  // ---------------------------------------------------------------------
  // What the search finds on a well-ordered board

  /** Every page 1..total loads with at least one article, each page's first
      article is not older than its last, and no page's oldest date is after
      that of the page before it. Newest dates may go up and down, as when a
      page starts with a pinned post. */
  ghost predicate OldestOrdered(rangeAt: PageRanges, total: int) {
    && (forall p :: 1 <= p <= total ==> rangeAt(p).Success?)
    && (forall p :: 1 <= p <= total ==> NotAfter(Oldest(rangeAt, p), Newest(rangeAt, p)))
    && (forall p :: 1 <= p < total ==> OldestStepsDown(rangeAt, p))
  }

  /** A well-ordered board: oldest-ordered, and in addition no page's newest
      date is after that of the page before it (pages may still overlap). */
  ghost predicate Ordered(rangeAt: PageRanges, total: int) {
    && OldestOrdered(rangeAt, total)
    && (forall p :: 1 <= p < total ==> NewestStepsDown(rangeAt, p))
  }

  /** The oldest date of page `p + 1` is not after that of page `p`. */
  ghost predicate OldestStepsDown(rangeAt: PageRanges, p: int)
    requires rangeAt(p).Success? && rangeAt(p + 1).Success?
  {
    NotAfter(Oldest(rangeAt, p + 1), Oldest(rangeAt, p))
  }

  /** The newest date of page `p + 1` is not after that of page `p`. */
  ghost predicate NewestStepsDown(rangeAt: PageRanges, p: int)
    requires rangeAt(p).Success? && rangeAt(p + 1).Success?
  {
    NotAfter(Newest(rangeAt, p + 1), Newest(rangeAt, p))
  }

  ghost function Newest(rangeAt: PageRanges, p: int): Date
    requires rangeAt(p).Success?
  {
    rangeAt(p).value.newest
  }

  ghost function Oldest(rangeAt: PageRanges, p: int): Date
    requires rangeAt(p).Success?
  {
    rangeAt(p).value.oldest
  }

  /** On an oldest-ordered board every page of the board loads. */
  lemma OrderedPagesLoad(rangeAt: PageRanges, total: int, p: int)
    requires 1 <= p <= total
    ensures OldestOrdered(rangeAt, total) ==> rangeAt(p).Success?
  {
  }

  /** On an oldest-ordered board the oldest date of a later page is never
      after that of an earlier page. */
  lemma {:induction false} OldestNonIncreasing(rangeAt: PageRanges, total: int, p: int, q: int)
    requires OldestOrdered(rangeAt, total)
    requires 1 <= p <= q <= total
    ensures NotAfter(Oldest(rangeAt, q), Oldest(rangeAt, p))
    decreases q - p
  {
    if p < q {
      OldestNonIncreasing(rangeAt, total, p, q - 1);
      assert OldestStepsDown(rangeAt, q - 1);
      NotAfterTransitive(Oldest(rangeAt, q), Oldest(rangeAt, q - 1), Oldest(rangeAt, p));
    }
  }

  /** On a well-ordered board the newest date of a later page is never after
      that of an earlier page. */
  lemma {:induction false} NewestNonIncreasing(rangeAt: PageRanges, total: int, p: int, q: int)
    requires Ordered(rangeAt, total)
    requires 1 <= p <= q <= total
    ensures NotAfter(Newest(rangeAt, q), Newest(rangeAt, p))
    decreases q - p
  {
    if p < q {
      NewestNonIncreasing(rangeAt, total, p, q - 1);
      assert NewestStepsDown(rangeAt, q - 1);
      NotAfterTransitive(Newest(rangeAt, q), Newest(rangeAt, q - 1), Newest(rangeAt, p));
    }
  }

  /** The first page at or after `p` whose oldest article is dated on or
      before `target`, or `total + 1` when there is none. */
  ghost function FirstNotNewer(rangeAt: PageRanges, total: int, target: Date, p: int): (r: int)
    requires 1 <= p <= total + 1
    requires forall q :: p <= q <= total ==> rangeAt(q).Success?
    ensures p <= r <= total + 1
    ensures forall q :: p <= q < r ==> Before(target, Oldest(rangeAt, q))
    ensures r <= total ==> NotAfter(Oldest(rangeAt, r), target)
    decreases total + 1 - p
  {
    if p > total then p
    else if NotAfter(Oldest(rangeAt, p), target) then p
    else FirstNotNewer(rangeAt, total, target, p + 1)
  }

  /** On an oldest-ordered board the only stopping point of the search is the
      first page whose oldest date is not newer than the target. */
  lemma BoundaryIsFirstNotNewer(rangeAt: PageRanges, total: int, target: Date, start: int)
    requires total >= 0
    requires StoppedAt(rangeAt, total, target, start)
    ensures OldestOrdered(rangeAt, total) ==> start == FirstNotNewer(rangeAt, total, target, 1)
  {
    if OldestOrdered(rangeAt, total) {
      var f := FirstNotNewer(rangeAt, total, target, 1);
      if start <= total {
        // Page `start` sent the search left, so its oldest date is not after
        // the target, and the first such page comes no later.
        assert NotAfter(Oldest(rangeAt, start), target);
        FirstNotNewerIsFirst(rangeAt, total, target, start);
      }
      if start > f {
        // Page `start - 1` sent the search right, yet its oldest date is at
        // most page f's, which is not after the target.
        OldestNonIncreasing(rangeAt, total, f, start - 1);
        assert false;
      }
    }
  }

  /** The page found is no later than any page whose oldest date is not
      newer than the target. */
  lemma FirstNotNewerIsFirst(rangeAt: PageRanges, total: int, target: Date, q: int)
    requires total >= 0 && forall p :: 1 <= p <= total ==> rangeAt(p).Success?
    requires 1 <= q <= total && NotAfter(Oldest(rangeAt, q), target)
    ensures FirstNotNewer(rangeAt, total, target, 1) <= q
  {
  }

  /** If some page's range contains the target, the page found is the first
      page whose range contains it. */
  lemma FirstNotNewerContainsTarget(rangeAt: PageRanges, total: int, target: Date, q: int)
    requires total >= 0 && Ordered(rangeAt, total)
    requires 1 <= q <= total
    requires NotAfter(Oldest(rangeAt, q), target) && NotAfter(target, Newest(rangeAt, q))
    ensures FirstNotNewer(rangeAt, total, target, 1) <= q
    ensures NotAfter(target, Newest(rangeAt, FirstNotNewer(rangeAt, total, target, 1)))
  {
    var f := FirstNotNewer(rangeAt, total, target, 1);
    FirstNotNewerIsFirst(rangeAt, total, target, q);
    assert 1 <= f <= q;
    // A later page's newest date is never after an earlier page's.
    NewestNonIncreasing(rangeAt, total, f, q);
    NotAfterTransitive(target, Newest(rangeAt, q), Newest(rangeAt, f));
  }
}

=== FILE: urls.dfy ===
/** The two URL shapes the scraper builds for a stock board `code`: listing
    pages and article permalinks. Both are plain concatenations; the parsers
    below invert them, which shows that distinct pages and distinct posts
    are never sent to the same address. */
module Urls {
  import opened Wrappers
  import opened Decimal

  const Site := "https://guba.eastmoney.com/"

  /** The board's base listing address (the fetcher's `start_url`). */
  function StartUrl(code: string): string {
    Site + "list," + code
  }

  /** Address of listing page `pn` of the board. */
  function ListingUrl(code: string, pn: int): string {
    StartUrl(code) + "_" + IntToString(pn) + ".html"
  }

  /** Permalink of the post numbered `postId` on the board. */
  function ArticleUrl(code: string, postId: int): string {
    Site + "news," + code + "," + IntToString(postId) + ".html"
  }

  /** The integer between a known prefix and the suffix ".html", if any. */
  function NumberBetween(prefix: string, url: string): (r: Option<int>)
    ensures r.Some? ==> |url| >= |prefix| + 5 && url[..|prefix|] == prefix
  {
    if |url| >= |prefix| + 5 && url[..|prefix|] == prefix && url[|url| - 5..] == ".html"
    then ParseInt(url[|prefix|..|url| - 5])
    else None
  }

  function PageOfListingUrl(code: string, url: string): Option<int> {
    NumberBetween(StartUrl(code) + "_", url)
  }

  function PostOfArticleUrl(code: string, url: string): Option<int> {
    NumberBetween(Site + "news," + code + ",", url)
  }

  lemma NumberBetweenRoundTrip(prefix: string, n: int)
    ensures NumberBetween(prefix, prefix + IntToString(n) + ".html") == Some(n)
  {
    var url := prefix + IntToString(n) + ".html";
    assert url[..|prefix|] == prefix;
    assert url[|url| - 5..] == ".html";
    assert url[|prefix|..|url| - 5] == IntToString(n);
    ParseIntToString(n);
  }

  /** The page number can be read back from a listing address. */
  lemma ListingUrlRoundTrip(code: string, pn: int)
    ensures PageOfListingUrl(code, ListingUrl(code, pn)) == Some(pn)
  {
    NumberBetweenRoundTrip(StartUrl(code) + "_", pn);
  }

  /** The post number can be read back from a permalink. */
  lemma ArticleUrlRoundTrip(code: string, postId: int)
    ensures PostOfArticleUrl(code, ArticleUrl(code, postId)) == Some(postId)
  {
    NumberBetweenRoundTrip(Site + "news," + code + ",", postId);
  }

  /** Different page numbers of one board are fetched from different addresses. */
  lemma ListingUrlInjective(code: string, p: int, q: int)
    ensures ListingUrl(code, p) == ListingUrl(code, q) ==> p == q
  {
    ListingUrlRoundTrip(code, p);
    ListingUrlRoundTrip(code, q);
  }

  /** A listing address is never a permalink, so the two fetch paths never
      share an address. */
  lemma ListingIsNotArticle(code: string, pn: int, postId: int)
    ensures ListingUrl(code, pn) != ArticleUrl(code, postId)
  {
    var l := ListingUrl(code, pn);
    var a := ArticleUrl(code, postId);
    assert l[|Site|] == 'l';
    assert a[|Site|] == 'n';
  }
}

=== FILE: wrappers.dfy ===
/** Failure-compatible result types shared by the scraper model.
    `Result` stands for a Python call that either returns a value or raises
    an exception; `Option` for a lookup that may find nothing. */
module Wrappers {

  datatype Option<+T> = None | Some(value: T)

  datatype Result<+T, +E> = Success(value: T) | Failure(error: E) {

    predicate IsFailure() {
      Failure?
    }

    function PropagateFailure<U>(): Result<U, E>
      requires Failure?
    {
      Failure(error)
    }

    function Extract(): T
      requires Success?
    {
      value
    }
  }
}
